=== FILE: README.md ===
# EventSphere authentication core, modelled in Dafny

EventSphere is a REST backend for an events platform. This project models its
authentication and identity layer:

- the **principal chain** that turns a bearer token into the current user and then gates
  that user on being active and on role (admin, or organizer-or-admin);
- **token handling**: creating an access token with its expiry rule, and decoding its
  subject;
- the **users table operations**: lookup by id and by email, paging in id order,
  administrator creation with defaults, self-registration, partial updates, password
  change and deletion;
- the **login and registration endpoints**;
- the declarative **request schemas** for registration and for reviews.

Everything is pure functions over immutable records. The users table is a map from
primary key to row (`UserCrud.Store`). Its two database constraints are stated as
predicates: rows are keyed by their own id, and emails are unique. Outside collaborators
are parameters:

- The JWT library's verification is an outcome passed in (`Claims.JwtOutcome`: the
  payload, or `JwtError`).
- A signed token is the claim set it was signed over (`Claims.AccessToken`).
- bcrypt is a symbolic digest that accepts exactly the password it was made from
  (`Passwords`).
- The clock (`now`, whole seconds), the database-assigned id (`newId`), the bcrypt salt
  and the e-mail address normaliser (`normalise`, standing for pydantic's `EmailStr`) are
  all parameters.

Modules follow the source files:

| module | source |
|---|---|
| `Claims`, `Security`, `Passwords`, `Decimal` | app/auth/security.py |
| `Dependencies` | app/auth/dependencies.py |
| `UserModel`, `UserCrud` | app/auth/user_crud.py |
| `SchemasAuth` | app/auth/schemas_auth.py |
| `AuthRouter` | app/routes/auth_router.py |
| `ReviewSchemas`, `Validation` | app/schemas/review.py |
| `Http`, `Wrappers` | shared error and result types |

An inactive account is refused with 400 (Bad Request), not 403, by both the request gate
and the login endpoint, and the model does the same.

## Model

| member | source | states |
|---|---|---|
| `Claims.Get` | app/auth/dependencies.py:30-33 | a `sub` claim that is absent and one holding JSON null both read as missing |
| `Claims.ToInt` | app/auth/dependencies.py:35-39 | `int()` of an integer claim is that integer; of a text claim it is exactly what `Decimal.Parse` reads from the text: its value when the text is an optionally signed run of digits, and the ValueError case otherwise |
| `Decimal.Parse` | app/auth/security.py:35-38 | a subject text is accepted as an integer exactly when it is an optional sign followed by one or more ASCII digits |
| `Decimal.ParseShow` | app/routes/auth_router.py:40-43 | reading back the decimal text `str(id)` written into a token subject gives the same id, for every integer |
| `Decimal.ShowInjective` | app/routes/auth_router.py:41 | distinct user ids are written as distinct subjects |
| `Passwords.GetPasswordHash` | app/auth/security.py:12-16 | a freshly computed hash verifies exactly the password it was computed from |
| `SchemasAuth.ResponseHidesOnlyPassword` | app/auth/schemas_auth.py:5-12 | two rows have the same public view exactly when they differ at most in the password hash: the view leaks nothing about the hash and drops nothing else |
| `SchemasAuth.ValidateUserCreateAuth` | app/auth/schemas_auth.py:24-27 | a registration body is accepted exactly when the email is present and valid, the password is at least 8 characters long, and the name is either absent or 2 to 100 characters long; the accepted record carries the normalised email, not the text as sent; a refusal lists at least one issue, each naming one of those fields |
| `SchemasAuth.ShortPasswordRefused` | app/auth/schemas_auth.py:26 | a password under 8 characters is refused with a too-short issue whatever the other fields hold |
| `Security.ExpiryFor` | app/auth/security.py:20-23 | a non-zero delta expires the token at now + delta; a missing or zero delta (a falsy timedelta) gets the configured default lifetime; so no token expires at the instant it is created |
| `Security.CreateAccessToken` | app/auth/security.py:18-27 | the token's claims are the caller's claims plus `exp`; every claim other than `exp` is copied unchanged, and `exp` replaces any `exp` the caller passed |
| `Security.DecodeAccessToken` | app/auth/security.py:29-41 | a JWT error, a missing or null subject, and a non-integer subject all decode to None; a successful decode always carries a user id and is never the default `TokenData` (whose `user_id` is None) |
| `Security.IssuedTokenDecodes` | app/auth/security.py:18-41 | a token created with subject `str(id)` decodes to `TokenData(user_id=id)` whatever its lifetime, when the JWT layer hands the signed claims back (an expired token is a JWT error, and decodes to None) |
| `UserCrud.GetUserById` | app/auth/user_crud.py:10-12 | the lookup finds a row exactly when the id is a key of the table, and the row found carries that id |
| `UserCrud.AscendingIds` | app/auth/user_crud.py:20 | `ORDER BY id` lists every id of the table exactly once, in strictly increasing order |
| `UserCrud.AscendingRanks` | app/auth/user_crud.py:18-22 | in the id-ordered listing, the id at position j has exactly j smaller ids in the table |
| `UserCrud.GetUsersPaginated` | app/auth/user_crud.py:18-22 | a page holds min(limit, rows − skip) stored rows (none once skip reaches the row count), and its k-th row is the one with exactly skip + k smaller ids: ascending id order, skipping the first `skip` |
| `UserCrud.GetUserByEmail` | app/auth/user_crud.py:14-16 | a row is found exactly when some row has the email; the row found is stored and has that email; with unique emails it is that row |
| `UserCrud.Commit` | app/models/user.py:10 | writing a row fails with a unique violation exactly when another row already has its email; on success only that row changes, and the table constraints are preserved |
| `UserCrud.NewUserByAdmin` | app/auth/user_crud.py:24-33 | the created account is active unless the request explicitly says false; its role is the requested one when non-empty, and "user" when missing or empty, so it is never empty; the stored hash verifies exactly the submitted password |
| `UserCrud.CreateUserByAdmin` | app/auth/user_crud.py:24-37 | administrator creation adds exactly that row under the new id, fails only on a duplicate email, and keeps the table's constraints |
| `UserCrud.NewRegisteredUser` | app/auth/user_crud.py:39-48 | a self-registered account is always an active "user" with no bio, whatever it asked for; the stored hash verifies exactly its password |
| `UserCrud.RegisterNewUser` | app/auth/user_crud.py:39-52 | registration adds exactly that row under the new id, fails only on a duplicate email, and keeps the table's constraints |
| `UserCrud.ApplyPatch` | app/auth/user_crud.py:54-57 | each field explicitly set in the update takes its new value, an explicit null included; every field not set, and the id, hash and creation time, keep their old values |
| `UserCrud.PatchLaws` | app/auth/user_crud.py:55-57 | applying the same partial update twice gives the record applying it once gives; an empty update changes nothing; two successive updates equal one combined update |
| `UserCrud.UpdateExistingUser` | app/auth/user_crud.py:54-61 | the patched row replaces the old one and no other row changes; the update is refused exactly when the new email belongs to another row |
| `UserCrud.UpdateUserProfile` | app/auth/user_crud.py:68-74 | exactly the profile fields the request sets (email, name, bio; an explicit null included) take their new values; the id, creation time, role, active flag and password hash are kept; the update is refused exactly when the resulting email belongs to another row, and otherwise only this row changes and the table's constraints are kept |
| `UserCrud.UpdateUserPassword` | app/auth/user_crud.py:76-80 | only the hash changes, and the new hash verifies exactly the new password |
| `UserCrud.DeleteExistingUser` | app/auth/user_crud.py:63-66 | exactly that row disappears; every other row is unchanged |
| `Dependencies.TokenSubject` | app/auth/dependencies.py:24-43 | a JWT error, a missing or null `sub`, and a non-integer `sub` all fail with the one credentials exception (401); a decimal `sub` yields its value |
| `Dependencies.OAuth2Scheme` | app/auth/security.py:11 | a request without a bearer token (no `Authorization` header, or another scheme) is refused with the 401 "Not authenticated" and the Bearer challenge; a bearer token is handed on as it is |
| `Dependencies.GetCurrentUser` | app/auth/dependencies.py:20-49 | every failure is a 401 with the Bearer challenge: "Not authenticated" without a bearer token, and otherwise the one credentials exception; with a well-formed subject the user is resolved exactly when that id is stored, and the result is that stored row |
| `Dependencies.DecodeAgreesWithGate` | app/auth/security.py:29-41 | `decode_access_token` returns None on exactly the tokens `get_current_user` refuses before the table lookup, and otherwise the same id |
| `Dependencies.RequireActive` | app/auth/dependencies.py:54-57 | passes exactly the active users, unchanged; refuses the others with 400 |
| `Dependencies.RequireAdmin` | app/auth/dependencies.py:62-68 | passes exactly the users whose role is "admin", unchanged; refuses the others with 403 |
| `Dependencies.RequireOrganizer` | app/auth/dependencies.py:73-79 | passes exactly the users whose role is "organizer" or "admin", unchanged; refuses the others with 403 |
| `Dependencies.GetCurrentActiveUser` | app/auth/dependencies.py:51-57 | credential failures pass through first; after them the request passes exactly when the resolved user is active, and yields that same user |
| `Dependencies.GetCurrentAdminUser` | app/auth/dependencies.py:59-68 | passes exactly the resolved users that are active and have role "admin"; credential failures pass through; a resolved inactive user gets the 400 whatever its role, and an active user of another role gets the 403 |
| `Dependencies.GetCurrentOrganizerUser` | app/auth/dependencies.py:70-79 | passes exactly the resolved users that are active and whose role is "organizer" or "admin"; credential failures pass through; a resolved inactive user gets the 400 whatever its role, and an active user of another role gets the 403 |
| `Dependencies.AdminPassesOrganizerGate` | app/auth/dependencies.py:59-79 | every request the admin gate admits is admitted by the organizer gate, with the same user |
| `Dependencies.IssuedTokenResolves` | app/auth/dependencies.py:20-68 | a token issued for a stored id resolves to that row; the active gate then passes exactly when the row is active, and the admin gate exactly when it is also an admin |
| `AuthRouter.SessionToken` | app/routes/auth_router.py:39-45 | a session token has type "bearer"; its only claims are the subject `str(id)` and an `exp` of now plus `ACCESS_TOKEN_EXPIRE_MINUTES` minutes |
| `AuthRouter.LoginForAccessToken` | app/routes/auth_router.py:19-45 | an unknown email and a wrong password give the identical 401; a correct password on an inactive account gives 400; a correct password on an active account gives that account's session token; nothing else can happen |
| `AuthRouter.LoginTokenResolves` | app/routes/auth_router.py:40-45 | the token a successful login returns resolves, through the active-user gate, to the account with the login email and password |
| `AuthRouter.RegisterUserAsWritten` | app/routes/auth_router.py:47-77 | invalid bodies get 422 and an email whose normalised form is taken gets 400, both with the table untouched; an exception during the insert gets 500 with the table untouched; an exception after the commit gets 500 with the new row kept; otherwise the new row and its bearer token are returned |
| `AuthRouter.FailedRegistrationKeepsUser` | app/routes/auth_router.py:59-77 | one concrete registration that answers 500 yet leaves the account in the table |
| `AuthRouter.RegisterUser` | app/routes/auth_router.py:47-77 | the flow reordered so that the commit is its last step: invalid bodies get 422 and a taken email 400; every failure leaves the table exactly as it was; registration succeeds exactly for a valid body with an unregistered email and no fault, and then adds the new row |
| `AuthRouter.ReorderingKeepsResponses` | app/routes/auth_router.py:47-77 | the reordered flow gives every request the same response as the code as written, and leaves the same table except when the token fails after the duplicate check |
| `AuthRouter.RegistrationThenLogin` | app/routes/auth_router.py:60-67 | a successful registration adds exactly one active "user" row, stored under the normalised email, and keeps the table's constraints; the returned token resolves to that row; logging in with the normalised email and the password succeeds at once |
| `ReviewSchemas.ValidateCreateAuthenticated` | app/schemas/review.py:5-8 | accepted exactly when event id, comment and a rating in [1, 5] are present; the result copies them |
| `ReviewSchemas.ValidateCreateWithoutBinding` | app/schemas/review.py:10-14 | accepted exactly when event id, author id, comment and a rating in [1, 5] are present; the result copies them |
| `ReviewSchemas.ValidateUpdate` | app/schemas/review.py:24-26 | not partial: accepted exactly when both comment and a rating in [1, 5] are present |
| `ReviewSchemas.CreateSchemasAgree` | app/schemas/review.py:5-14 | the authenticated create ignores any author id in the body; the unbound create accepts exactly the bodies the authenticated one accepts that also carry an author id, with the same event, comment and rating |
| `ReviewSchemas.RatingOutOfRangeRefused` | app/schemas/review.py:5-26 | a rating outside [1, 5] is refused by all three input schemas, with the bound it violates |

## Findings

| source | as written | input that shows it | evidently intended | confidence | as-written member | corrected member |
|---|---|---|---|---|---|---|
| app/routes/auth_router.py:59-77 | the handler catches any exception after the duplicate check with `rollback()` and a 500; when the exception comes from creating the token, the insert has already been committed, so the rollback undoes nothing | a valid registration of a new email where an exception follows the commit at app/auth/user_crud.py:50: `db.refresh` at app/auth/user_crud.py:51 fails, or `jwt.encode` at app/auth/security.py:26 raises for an unsupported algorithm | a 500 leaves no account behind, so the client may retry | medium, not executed | AuthRouter.FailedRegistrationKeepsUser | AuthRouter.RegisterUser |

`AuthRouter.FailedRegistrationKeepsUser` is a concrete instance of
`AuthRouter.RegisterUserAsWritten`. `AuthRouter.RegisterUser` inserts the row, creates
the token and only then commits, so a token failure happens before anything is committed
and every failure leaves the table unchanged. `AuthRouter.ReorderingKeepsResponses` shows
that the reordering changes no response. `AuthRouter.RegistrationThenLogin` is stated about
the reordered flow.

## Left out

- JWT encoding, signing and verification are not modelled. Verification is an outcome
  passed in; a signed token is the claim set it was signed over.
- bcrypt is a symbolic digest. The salt is a parameter. passlib's bcrypt compares only the
  first 72 bytes of a password, so the promise that a hash verifies exactly its own password
  (`Passwords.GetPasswordHash`, `UserCrud.NewUserByAdmin`, `UserCrud.NewRegisteredUser`,
  `UserCrud.UpdateUserPassword`) holds of the symbolic digest only.
- The e-mail address validator is not modelled. It is a parameter `normalise`: None for an
  invalid address, otherwise the normalised address (pydantic's `EmailStr` lower-cases the
  domain and strips blanks and a display name). Registration stores and compares the
  normalised address. The login form's `username` is not normalised, so login succeeds with
  the normalised address, which `AuthRouter.RegistrationThenLogin` uses.
- The database session, commit/refresh/rollback, and the async plumbing are not
  modelled. The table is a map. Unexpected exceptions during registration are the
  `AuthRouter.Fault` parameter.
- Configuration: `SECRET_KEY`, `ALGORITHM` and `ACCESS_TOKEN_EXPIRE_MINUTES` are missing
  from app/config.py. The lifetime is the constant `Security.ACCESS_TOKEN_EXPIRE_MINUTES`
  (30). Only `Security.ExpiryFor`'s promise that no token expires at the instant it is
  created depends on it, and only on its being non-zero.
- Time is whole seconds since the epoch. Sub-second precision of `datetime` and
  `timedelta` is not modelled.
- Decimal.Parse: has no length limit. CPython 3.10.7 and later refuse, with a ValueError,
  text of more than 4300 digits (`sys.int_info.default_max_str_digits`, configurable); the
  model reads such a subject as its value, where `decode_access_token` and
  `get_current_user` refuse it. Database ids are far shorter. Otherwise Parse is
  narrower than Python's `int()` on text. Surrounding whitespace,
  underscores between digits and non-ASCII digits are refused, where Python accepts them.
- Dependencies.GetCurrentUser: the id lookup never fails in the model. In the code, a
  verified subject outside the database's integer range (at least 2^63 with the default
  SQLite driver, above 2^31 − 1 for a PostgreSQL `Integer`) makes `db.get` raise an
  overflow error, which nothing catches, so the request ends in a 500. For such a subject
  the model answers the 401 credentials exception, so "every failure is a 401" holds only
  for ids within that range.
- Claims.ToInt: only null, text and integer claim values are modelled. For a float,
  boolean, array or object subject, `int()` truncates, converts or raises a TypeError
  that the code does not catch; the JWT library normally rejects a non-text subject first.
- The schemas `UserCreateSchema`, `UserUpdateAdminSchema` and `UserProfileUpdateSchema`
  are imported from app/schemas/user.py but not defined there. Their fields are inferred
  from how app/auth/user_crud.py uses them. The profile schema is taken to carry email,
  name and bio only.
- app/models/user.py lacks the `name`, `hashed_password`, `is_active` and `role` columns
  that app/auth/user_crud.py writes. As shipped, constructing such a row raises before
  anything is added to the session. The row type follows user_crud, as if the table had
  those columns.
- app/routes/auth_router.py:9 imports `UserResponseSchema` from app/schemas/user.py,
  which does not define it. The model uses the one in app/auth/schemas_auth.py, as the
  registration response does.
- UserCrud.GetUsersPaginated: `skip` and `limit` are natural numbers. The database's
  handling of negative values is not modelled.
- UserCrud.GetUserByEmail: without the unique constraint, `.first()` has no defined
  order. The model then returns the least id, and only the unique case is stated.
- Validation of the login form (missing `username` or `password` give 422) is not
  modelled.
- Lax input coercion (a numeric string accepted as an int) is not modelled.
- The review response schema's output validation is not modelled.
- Cascading deletes of a user's owned rows are not modelled.
- Logging is not modelled.
- The other route files are not modelled. Events, categories, comments, reviews,
  subscriptions, participations and tickets are plain insert and select wrappers with
  no decision logic.
- The in-memory user list in app/routes/users.py and the application bootstrap are not
  modelled.

=== FILE: auth_router.dfy ===
/** The `/auth/token` and `/auth/register` endpoints over the users table. */
module AuthRouter {
  import opened Wrappers
  import opened Http
  import opened Claims
  import opened Passwords
  import opened UserModel
  import opened UserCrud
  import opened SchemasAuth
  import Security
  import Decimal
  import Dependencies

  const INCORRECT_LOGIN := HttpError(UNAUTHORIZED, Message("Incorrect email or password"), true)
  const INACTIVE_LOGIN := HttpError(BAD_REQUEST, Message("Inactive user. Please contact support."), false)
  const EMAIL_REGISTERED := HttpError(BAD_REQUEST, Message("Email already registered."), false)
  const REGISTRATION_FAILED :=
    HttpError(INTERNAL_SERVER_ERROR, Message("An unexpected error occurred during registration."), false)
  const BEARER := "bearer"

  /** The OAuth2 password form: `username` carries the email. */
  datatype LoginForm = LoginForm(username: string, password: string)

  /** The bearer token issued for a user: its only claims are the subject `str(id)` and an
      expiry the configured default lifetime after `now`. */
  function SessionToken(userId: int, now: int): (t: Token)
    ensures t.tokenType == BEARER
    ensures t.accessToken.claims.Keys == {SUB, EXP}
    ensures t.accessToken.claims[SUB] == Text(Decimal.Show(userId))
    ensures t.accessToken.claims[EXP] == Integer(now + Security.DEFAULT_LIFETIME)
  {
    Token(Security.CreateAccessToken(Security.SubjectClaims(userId), Some(Security.ACCESS_TOKEN_EXPIRE_MINUTES * 60), now), BEARER)
  }

  /** `login_for_access_token`. An unknown email and a wrong password give the identical
      401; an inactive account is told so (400) only once its password has been checked;
      otherwise the account's session token is issued. */
  function LoginForAccessToken(s: Store, form: LoginForm, now: int): (r: Result<Token, HttpError>)
    ensures (forall id :: id in s ==> s[id].email != form.username) ==> r == Err(INCORRECT_LOGIN)
    ensures WellFormed(s) ==> forall id :: id in s && s[id].email == form.username ==>
              && (!VerifyPassword(form.password, s[id].hashedPassword) ==> r == Err(INCORRECT_LOGIN))
              && (VerifyPassword(form.password, s[id].hashedPassword) && !s[id].isActive ==> r == Err(INACTIVE_LOGIN))
              && (VerifyPassword(form.password, s[id].hashedPassword) && s[id].isActive ==> r == Ok(SessionToken(id, now)))
    ensures r.Err? ==> r.error == INCORRECT_LOGIN || r.error == INACTIVE_LOGIN
  {
    var user := GetUserByEmail(s, form.username);
    if user.None? || !VerifyPassword(form.password, user.value.hashedPassword) then
      Err(INCORRECT_LOGIN)
    else if !user.value.isActive then
      Err(INACTIVE_LOGIN)
    else
      Ok(SessionToken(user.value.id, now))
  }

  /** Logging in with an active account's email and password returns its session token,
      and that token, handed back intact, resolves through the active-user gate to the
      same account. */
  lemma LoginTokenResolves(s: Store, id: int, password: string, now: int)
    requires WellFormed(s) && id in s
    requires VerifyPassword(password, s[id].hashedPassword) && s[id].isActive
    ensures var r := LoginForAccessToken(s, LoginForm(s[id].email, password), now);
            && r == Ok(SessionToken(id, now))
            && Dependencies.GetCurrentActiveUser(Dependencies.Bearer(Decoded(r.value.accessToken.claims)), s) == Ok(s[id])
  {
    Dependencies.IssuedTokenResolves(s, id, Some(Security.ACCESS_TOKEN_EXPIRE_MINUTES * 60), now);
  }

  /** Where an unexpected exception strikes during registration, if at all: while the row
      is being inserted (nothing committed yet) or while the token is being created (the
      row already committed). */
  datatype Fault = NoFault | InsertFails | TokenFails

  /** An endpoint's response together with the table it leaves behind. */
  datatype Registration = Registration(response: Result<UserWithToken, HttpError>, store: Store)

  /** `register_user` as written. The body is validated first (422); an email already in
      the table is refused with 400 and nothing written; any later exception is a 500 after
      `rollback()`. A rollback cannot undo the committed insert, so an exception raised
      while creating the token leaves the new row in the table. */
  function RegisterUserAsWritten(s: Store, body: RegistrationBody, normalise: string -> Option<string>,
                                 newId: int, salt: nat, now: int, fault: Fault): (r: Registration)
    requires newId !in s
    ensures !AcceptableRegistration(body, normalise) ==>
              r.response.Err? && r.response.error.status == UNPROCESSABLE_ENTITY && r.store == s
    ensures AcceptableRegistration(body, normalise) && EmailRegistered(s, ValidatedEmail(body, normalise)) ==>
              r.response == Err(EMAIL_REGISTERED) && r.store == s
    ensures AcceptableRegistration(body, normalise) && !EmailRegistered(s, ValidatedEmail(body, normalise)) ==>
              var created := NewRegisteredUser(UserCreateAuth(ValidatedEmail(body, normalise), body.password.value, body.name), newId, salt, now);
              && (fault == InsertFails ==> r.response == Err(REGISTRATION_FAILED) && r.store == s)
              && (fault == TokenFails ==> r.response == Err(REGISTRATION_FAILED) && r.store == s[newId := created])
              && (fault == NoFault ==>
                    r.response == Ok(UserWithToken(ToResponse(created), SessionToken(newId, now))) &&
                    r.store == s[newId := created])
  {
    match ValidateUserCreateAuth(body, normalise)
    case Err(issues) => Registration(Err(UnprocessableEntity(issues)), s)
    case Ok(input) =>
      if GetUserByEmail(s, input.email).Some? then
        Registration(Err(EMAIL_REGISTERED), s)
      else if fault == InsertFails then
        Registration(Err(REGISTRATION_FAILED), s)
      else
        match RegisterNewUser(s, input, newId, salt, now)
        case Err(_) => Registration(Err(REGISTRATION_FAILED), s)
        case Ok((s', created)) =>
          if fault == TokenFails then
            Registration(Err(REGISTRATION_FAILED), s')
          else
            Registration(Ok(UserWithToken(ToResponse(created), SessionToken(created.id, now))), s')
  }

  /** A concrete registration that answers 500 yet leaves the account in the table. */
  lemma FailedRegistrationKeepsUser()
    ensures var r := RegisterUserAsWritten(map[], RegistrationBody(Some("ann@example.org"), Some("correct-horse"), None),
                                           a => Some(a), 1, 0, 0, TokenFails);
            && r.response.Err? && r.response.error.status == INTERNAL_SERVER_ERROR
            && 1 in r.store && r.store[1].email == "ann@example.org"
  {
  }

  /** `register_user` reordered so that nothing is committed before the last step that can
      fail: the row is inserted and given its id, the token is created, and only then is the
      insert committed. Every failure therefore leaves the table as it was, and a successful
      registration is the one of the code as written. */
  function RegisterUser(s: Store, body: RegistrationBody, normalise: string -> Option<string>,
                        newId: int, salt: nat, now: int, fault: Fault): (r: Registration)
    requires newId !in s
    ensures !AcceptableRegistration(body, normalise) ==>
              r.response.Err? && r.response.error.status == UNPROCESSABLE_ENTITY
    ensures AcceptableRegistration(body, normalise) && EmailRegistered(s, ValidatedEmail(body, normalise)) ==>
              r.response == Err(EMAIL_REGISTERED)
    ensures r.response.Err? ==> r.store == s
    ensures r.response.Ok? ==> AcceptableRegistration(body, normalise) && fault == NoFault
    ensures r.response.Ok? ==> !EmailRegistered(s, ValidatedEmail(body, normalise))
    ensures (AcceptableRegistration(body, normalise) && !EmailRegistered(s, ValidatedEmail(body, normalise)) && fault == NoFault) ==>
              r.response.Ok? && r.store == s[newId := NewRegisteredUser(UserCreateAuth(ValidatedEmail(body, normalise), body.password.value, body.name), newId, salt, now)]
    ensures r.response.Err? && AcceptableRegistration(body, normalise) && !EmailRegistered(s, ValidatedEmail(body, normalise)) ==>
              r.response == Err(REGISTRATION_FAILED)
  {
    match ValidateUserCreateAuth(body, normalise)
    case Err(issues) => Registration(Err(UnprocessableEntity(issues)), s)
    case Ok(input) =>
      if GetUserByEmail(s, input.email).Some? then
        Registration(Err(EMAIL_REGISTERED), s)
      else if fault == InsertFails then
        Registration(Err(REGISTRATION_FAILED), s)
      else if fault == TokenFails then
        Registration(Err(REGISTRATION_FAILED), s)
      else
        assert fault == NoFault;
        assert AcceptableRegistration(body, normalise);
        match RegisterNewUser(s, input, newId, salt, now)
        case Err(_) => Registration(Err(REGISTRATION_FAILED), s)
        case Ok((s', created)) => Registration(Ok(UserWithToken(ToResponse(created), SessionToken(newId, now))), s')
  }

  /** The reordering changes no response, only what a failure leaves behind: both flows
      answer every request alike, and they leave the same table unless the token fails
      after the duplicate check, where only the code as written keeps the new row. */
  lemma ReorderingKeepsResponses(s: Store, body: RegistrationBody, normalise: string -> Option<string>,
                                 newId: int, salt: nat, now: int, fault: Fault)
    requires newId !in s
    ensures RegisterUser(s, body, normalise, newId, salt, now, fault).response ==
            RegisterUserAsWritten(s, body, normalise, newId, salt, now, fault).response
    ensures fault != TokenFails ==>
              RegisterUser(s, body, normalise, newId, salt, now, fault) ==
              RegisterUserAsWritten(s, body, normalise, newId, salt, now, fault)
  {
  }

  /** A valid registration of an unregistered address succeeds and creates exactly one row:
      an active plain user under the new id, stored under the normalised address, whose
      returned token resolves to it and whose password logs in at once with that address. */
  lemma RegistrationThenLogin(s: Store, body: RegistrationBody, normalise: string -> Option<string>,
                              newId: int, salt: nat, now: int, later: int)
    requires WellFormed(s) && newId !in s
    requires AcceptableRegistration(body, normalise) && !EmailRegistered(s, ValidatedEmail(body, normalise))
    ensures var r := RegisterUser(s, body, normalise, newId, salt, now, NoFault);
            && r.response.Ok?
            && r.store.Keys == s.Keys + {newId}
            && WellFormed(r.store)
            && r.store[newId].email == ValidatedEmail(body, normalise)
            && r.store[newId].role == ROLE_USER && r.store[newId].isActive
            && Dependencies.GetCurrentUser(Dependencies.Bearer(Decoded(r.response.value.token.accessToken.claims)), r.store) == Ok(r.store[newId])
            && LoginForAccessToken(r.store, LoginForm(ValidatedEmail(body, normalise), body.password.value), later)
                 == Ok(SessionToken(newId, later))
  {
    var r := RegisterUser(s, body, normalise, newId, salt, now, NoFault);
    var input := UserCreateAuth(ValidatedEmail(body, normalise), body.password.value, body.name);
    var created := NewRegisteredUser(input, newId, salt, now);
    assert r.store == s[newId := created];
    assert !EmailTaken(s, created.email, newId);
    assert WellFormed(r.store);
    Dependencies.IssuedTokenResolves(r.store, newId, Some(Security.ACCESS_TOKEN_EXPIRE_MINUTES * 60), now);
  }
}

=== FILE: claims.dfy ===
/** JWT claim sets as the token layer hands them over, and the signed token itself.
    Signing and signature verification are not modelled: a token is the claim set it was
    signed over, and verification is an outcome passed in by the caller. */
module Claims {
  import opened Wrappers
  import Decimal

  /** A JSON claim value: null, a string, or an integer (a timestamp is an integer). */
  datatype Claim = Null | Text(text: string) | Integer(number: int)

  /** A decoded JWT payload: claim name to value. */
  type Payload = map<string, Claim>

  const SUB := "sub"
  const EXP := "exp"

  /** `payload.get(key)`: None when the claim is absent or holds JSON null. */
  function Get(p: Payload, key: string): (r: Option<Claim>)
    ensures r.Some? ==> key in p && r.value == p[key] && !r.value.Null?
    ensures r.None? ==> key !in p || p[key] == Null
  {
    if key in p && p[key] != Null then Some(p[key]) else None
  }

  /** Python's `int(value)` on a non-null claim; None stands for the ValueError it raises. */
  function ToInt(c: Claim): (r: Option<int>)
    requires !c.Null?
    ensures c.Integer? ==> r == Some(c.number)
    ensures c.Text? ==> r == Decimal.Parse(c.text)
  {
    if c.Text? then Decimal.Parse(c.text) else Some(c.number)
  }

  /** What `jwt.decode` with the configured key and algorithm yields: the claims, or a
      JWTError (bad signature, malformed token, expired `exp`). */
  datatype JwtOutcome = Decoded(payload: Payload) | JwtError

  /** An encoded JWT, represented by the claim set it was signed over. */
  datatype AccessToken = Signed(claims: Payload)
}

=== FILE: decimal.dfy ===
/** Decimal text for integers: Python's `str(n)` and the part of `int(s)` that the
    token subject uses (an optional sign followed by ASCII digits). */
module Decimal {
  import opened Wrappers

  predicate IsDigit(c: char) {
    '0' <= c <= '9'
  }

  predicate AllDigits(s: string) {
    forall i :: 0 <= i < |s| ==> IsDigit(s[i])
  }

  function DigitValue(c: char): (d: nat)
    requires IsDigit(c)
    ensures d < 10
  {
    (c as int) - ('0' as int)
  }

  function DigitChar(d: nat): (c: char)
    requires d < 10
    ensures IsDigit(c) && DigitValue(c) == d
  {
    (('0' as int) + d) as char
  }

  /** `str(n)` for n >= 0: the digits of n, most significant first, no leading zero. */
  function ShowNat(n: nat): (s: string)
    ensures 1 <= |s| && AllDigits(s)
    ensures |s| > 1 ==> s[0] != '0'
    decreases n
  {
    if n < 10 then [DigitChar(n)] else ShowNat(n / 10) + [DigitChar(n % 10)]
  }

  /** `str(n)`: a minus sign in front of the magnitude for negative n. */
  function Show(n: int): (s: string)
    ensures 1 <= |s|
    ensures n >= 0 <==> AllDigits(s)
  {
    if n < 0 then
      var s := "-" + ShowNat(-n);
      assert !IsDigit(s[0]);
      s
    else ShowNat(n)
  }

  /** The value of a non-empty run of digits, read most significant first. */
  function DigitsValue(s: string): nat
    requires 1 <= |s| && AllDigits(s)
    decreases |s|
  {
    if |s| == 1 then DigitValue(s[0])
    else DigitsValue(s[..|s| - 1]) * 10 + DigitValue(s[|s| - 1])
  }

  /** `int(s)` on the sign-and-digits subset of Python's integer syntax;
      None stands for the ValueError that any other text raises. */
  function Parse(s: string): (r: Option<int>)
    ensures r.Some? <==>
      (1 <= |s| && AllDigits(s)) || (2 <= |s| && s[0] in "+-" && AllDigits(s[1..]))
  {
    if 2 <= |s| && s[0] in "+-" && AllDigits(s[1..]) then
      var magnitude: int := DigitsValue(s[1..]);
      Some(if s[0] == '-' then -magnitude else magnitude)
    else if 1 <= |s| && AllDigits(s) then
      Some(DigitsValue(s))
    else
      None
  }

  /** Reading back the digits of n gives n. */
  lemma {:induction false} DigitsOfShowNat(n: nat)
    ensures DigitsValue(ShowNat(n)) == n
    decreases n
  {
    if n >= 10 {
      var s := ShowNat(n);
      assert s[..|s| - 1] == ShowNat(n / 10);
      DigitsOfShowNat(n / 10);
    }
  }

  /** `int(str(n)) == n` for every integer n. */
  lemma ParseShow(n: int)
    ensures Parse(Show(n)) == Some(n)
  {
    if n < 0 {
      var s := Show(n);
      assert s[1..] == ShowNat(-n);
      DigitsOfShowNat(-n);
    } else {
      DigitsOfShowNat(n);
    }
  }

  /** Distinct integers have distinct decimal text. */
  lemma ShowInjective(a: int, b: int)
    ensures Show(a) == Show(b) ==> a == b
  {
    ParseShow(a);
    ParseShow(b);
  }
}

=== FILE: dependencies.dfy ===
/** The request-principal chain: resolve the bearer token to a user, require the user to be
    active, then require a role. Each stage hands on the user it received, or fails. */
module Dependencies {
  import opened Wrappers
  import opened Http
  import opened Claims
  import opened UserModel
  import opened UserCrud
  import Decimal
  import Security
  import SchemasAuth

  /** The 401 `OAuth2PasswordBearer` answers when the request carries no bearer token. */
  const NOT_AUTHENTICATED := HttpError(UNAUTHORIZED, Message("Not authenticated"), true)
  /** The one 401 used for every failure to validate a bearer token. */
  const CREDENTIALS_EXCEPTION := HttpError(UNAUTHORIZED, Message("Could not validate credentials"), true)
  const INACTIVE_USER := HttpError(BAD_REQUEST, Message("Inactive user."), false)
  const ADMIN_REQUIRED :=
    HttpError(FORBIDDEN, Message("Operation not permitted. Administrator privileges required."), false)
  const ORGANIZER_REQUIRED :=
    HttpError(FORBIDDEN, Message("Operation not permitted. Organizer or administrator privileges required."), false)

  /** The user id a verified token names: the `sub` claim read as an integer. A failed
      verification, a missing or null subject, and a non-integer subject all give the
      credentials exception. */
  function TokenSubject(outcome: JwtOutcome): (r: Result<int, HttpError>)
    ensures r.Err? ==> r.error == CREDENTIALS_EXCEPTION
    ensures outcome.JwtError? ==> r.Err?
    ensures outcome.Decoded? && Get(outcome.payload, SUB).None? ==> r.Err?
    ensures (outcome.Decoded? && SUB in outcome.payload && outcome.payload[SUB].Text? &&
             Decimal.Parse(outcome.payload[SUB].text).None?) ==> r.Err?
    ensures (outcome.Decoded? && SUB in outcome.payload && outcome.payload[SUB].Text? &&
             Decimal.Parse(outcome.payload[SUB].text).Some?) ==> r == Ok(Decimal.Parse(outcome.payload[SUB].text).value)
  {
    if outcome.JwtError? then Err(CREDENTIALS_EXCEPTION)
    else
      var userIdClaim := Get(outcome.payload, SUB);
      if userIdClaim.None? then Err(CREDENTIALS_EXCEPTION)
      else
        var userId := ToInt(userIdClaim.value);
        if userId.None? then Err(CREDENTIALS_EXCEPTION) else Ok(userId.value)
  }

  /** The `Authorization` header as `OAuth2PasswordBearer` sees it: no bearer token (the
      header is missing or names another scheme), or a bearer token together with what
      JWT verification makes of it. */
  datatype BearerHeader = NoBearer | Bearer(outcome: JwtOutcome)

  /** `oauth2_scheme`: runs before `get_current_user` and refuses a request without a
      bearer token with its own 401. */
  function OAuth2Scheme(h: BearerHeader): (r: Result<JwtOutcome, HttpError>)
    ensures r.Err? <==> h.NoBearer?
    ensures r.Err? ==> r.error == NOT_AUTHENTICATED
    ensures r.Ok? ==> r.value == h.outcome
  {
    if h.NoBearer? then Err(NOT_AUTHENTICATED) else Ok(h.outcome)
  }

  /** `get_current_user` behind `oauth2_scheme`: the stored user the token names. Every
      failure is a 401 with the Bearer challenge; a well-formed subject that names no
      stored user is the same credentials failure as a bad token. */
  function GetCurrentUser(h: BearerHeader, s: Store): (r: Result<User, HttpError>)
    ensures r.Err? ==> r.error.status == UNAUTHORIZED && r.error.bearerChallenge
    ensures h.NoBearer? ==> r == Err(NOT_AUTHENTICATED)
    ensures h.Bearer? && r.Err? ==> r.error == CREDENTIALS_EXCEPTION
    ensures h.Bearer? && TokenSubject(h.outcome).Err? ==> r.Err?
    ensures h.Bearer? && TokenSubject(h.outcome).Ok? ==>
              (r.Ok? <==> TokenSubject(h.outcome).value in s) &&
              (r.Ok? ==> r.value == s[TokenSubject(h.outcome).value])
  {
    var outcome :- OAuth2Scheme(h);
    var userId :- TokenSubject(outcome);
    var user := GetUserById(s, userId);
    if user.None? then Err(CREDENTIALS_EXCEPTION) else Ok(user.value)
  }

  /** `decode_access_token` yields None on exactly the tokens `get_current_user` refuses
      before it looks at the table, and otherwise the same id. */
  lemma DecodeAgreesWithGate(outcome: JwtOutcome)
    ensures Security.DecodeAccessToken(outcome).None? <==> TokenSubject(outcome).Err?
    ensures TokenSubject(outcome).Ok? ==>
              Security.DecodeAccessToken(outcome) == Some(SchemasAuth.TokenData(Some(TokenSubject(outcome).value)))
  {
  }

  /** `get_current_active_user`'s own check: an inactive user is a 400, not a 403. */
  function RequireActive(u: User): (r: Result<User, HttpError>)
    ensures r.Ok? <==> u.isActive
    ensures r.Ok? ==> r.value == u
    ensures r.Err? ==> r.error.status == BAD_REQUEST && r.error == INACTIVE_USER
  {
    if !u.isActive then Err(INACTIVE_USER) else Ok(u)
  }

  /** `get_current_admin_user`'s own check. */
  function RequireAdmin(u: User): (r: Result<User, HttpError>)
    ensures r.Ok? <==> u.role == ROLE_ADMIN
    ensures r.Ok? ==> r.value == u
    ensures r.Err? ==> r.error == ADMIN_REQUIRED
  {
    if u.role != ROLE_ADMIN then Err(ADMIN_REQUIRED) else Ok(u)
  }

  /** `get_current_organizer_user`'s own check. */
  function RequireOrganizer(u: User): (r: Result<User, HttpError>)
    ensures r.Ok? <==> u.role == ROLE_ORGANIZER || u.role == ROLE_ADMIN
    ensures r.Ok? ==> r.value == u
    ensures r.Err? ==> r.error == ORGANIZER_REQUIRED
  {
    if u.role !in [ROLE_ORGANIZER, ROLE_ADMIN] then Err(ORGANIZER_REQUIRED) else Ok(u)
  }

  /** `get_current_active_user`: credential failures come first and pass through as they are. */
  function GetCurrentActiveUser(h: BearerHeader, s: Store): (r: Result<User, HttpError>)
    ensures GetCurrentUser(h, s).Err? ==> r == GetCurrentUser(h, s)
    ensures r.Ok? <==> GetCurrentUser(h, s).Ok? && GetCurrentUser(h, s).value.isActive
    ensures r.Ok? ==> r == GetCurrentUser(h, s)
  {
    var user :- GetCurrentUser(h, s);
    RequireActive(user)
  }

  /** `get_current_admin_user`: passes exactly the active admins; an inactive user is
      refused with the 400 whatever its role, since the activity check runs first, and an
      active user of another role with the 403. */
  function GetCurrentAdminUser(h: BearerHeader, s: Store): (r: Result<User, HttpError>)
    ensures GetCurrentUser(h, s).Err? ==> r == GetCurrentUser(h, s)
    ensures GetCurrentUser(h, s).Ok? && !GetCurrentUser(h, s).value.isActive ==>
              r == Err(INACTIVE_USER)
    ensures r.Ok? <==> GetCurrentUser(h, s).Ok? && GetCurrentUser(h, s).value.isActive &&
                       GetCurrentUser(h, s).value.role == ROLE_ADMIN
    ensures (GetCurrentUser(h, s).Ok? && GetCurrentUser(h, s).value.isActive &&
             GetCurrentUser(h, s).value.role != ROLE_ADMIN) ==> r == Err(ADMIN_REQUIRED)
    ensures r.Ok? ==> r == GetCurrentUser(h, s)
  {
    var user :- GetCurrentActiveUser(h, s);
    RequireAdmin(user)
  }

  /** `get_current_organizer_user`: passes exactly the active organizers and admins; an
      inactive user gets the 400 and an active user of another role the 403. */
  function GetCurrentOrganizerUser(h: BearerHeader, s: Store): (r: Result<User, HttpError>)
    ensures GetCurrentUser(h, s).Err? ==> r == GetCurrentUser(h, s)
    ensures GetCurrentUser(h, s).Ok? && !GetCurrentUser(h, s).value.isActive ==>
              r == Err(INACTIVE_USER)
    ensures r.Ok? <==> GetCurrentUser(h, s).Ok? && GetCurrentUser(h, s).value.isActive &&
                       GetCurrentUser(h, s).value.role in {ROLE_ORGANIZER, ROLE_ADMIN}
    ensures (GetCurrentUser(h, s).Ok? && GetCurrentUser(h, s).value.isActive &&
             GetCurrentUser(h, s).value.role !in {ROLE_ORGANIZER, ROLE_ADMIN}) ==>
              r == Err(ORGANIZER_REQUIRED)
    ensures r.Ok? ==> r == GetCurrentUser(h, s)
  {
    var user :- GetCurrentActiveUser(h, s);
    RequireOrganizer(user)
  }

  /** Every request the admin gate lets through, the organizer gate lets through too,
      with the same user. */
  lemma AdminPassesOrganizerGate(h: BearerHeader, s: Store)
    ensures GetCurrentAdminUser(h, s).Ok? ==>
              GetCurrentOrganizerUser(h, s) == GetCurrentAdminUser(h, s)
  {
  }

  /** A token issued for a stored user resolves, through every gate, to that user's row:
      the subject written as `str(id)` is read back as the same id. */
  lemma IssuedTokenResolves(s: Store, userId: int, expiresDelta: Option<int>, now: int)
    requires KeyedById(s) && userId in s
    ensures var h := Bearer(Decoded(Security.CreateAccessToken(Security.SubjectClaims(userId), expiresDelta, now).claims));
            && GetCurrentUser(h, s) == Ok(s[userId])
            && (GetCurrentActiveUser(h, s).Ok? <==> s[userId].isActive)
            && (GetCurrentAdminUser(h, s).Ok? <==> s[userId].isActive && s[userId].role == ROLE_ADMIN)
  {
    Decimal.ParseShow(userId);
  }
}

=== FILE: http.dfy ===
/** The HTTP errors the authentication layer raises, with the status codes it uses. */
module Http {
  import opened Validation

  const BAD_REQUEST := 400
  const UNAUTHORIZED := 401
  const FORBIDDEN := 403
  const UNPROCESSABLE_ENTITY := 422
  const INTERNAL_SERVER_ERROR := 500

  /** The body of an error response: a fixed message, or the list of validation issues. */
  datatype Detail = Message(text: string) | Issues(issues: seq<Issue>)

  /** An HTTPException: status code, detail, and whether the response carries the
      `WWW-Authenticate: Bearer` challenge header. */
  datatype HttpError = HttpError(status: int, detail: Detail, bearerChallenge: bool)

  /** The response the framework produces when a request body fails its schema. */
  function UnprocessableEntity(issues: seq<Issue>): HttpError {
    HttpError(UNPROCESSABLE_ENTITY, Issues(issues), false)
  }
}

=== FILE: passwords.dfy ===
/** Password hashing. bcrypt is modelled symbolically: a digest records the random salt it
    was drawn with and the password it was computed from, and only `VerifyPassword` looks
    at the password inside; no other member reads it. */
module Passwords {

  datatype Digest = Bcrypt(salt: nat, secret: string)

  /** `pwd_context.verify`: does the plaintext match the digest? */
  predicate VerifyPassword(plain: string, digest: Digest) {
    plain == digest.secret
  }

  /** `pwd_context.hash` with the salt it draws: the digest accepts exactly `password`. */
  function GetPasswordHash(password: string, salt: nat): (d: Digest)
    ensures forall plain :: VerifyPassword(plain, d) <==> plain == password
  {
    Bcrypt(salt, password)
  }
}

=== FILE: review_schemas.dfy ===
/** The review request schemas: what a body must contain, and the rating range. */
module ReviewSchemas {
  import opened Wrappers
  import opened Validation

  const RATING_MIN := 1
  const RATING_MAX := 5

  /** A review body as sent: any field may be missing; fields a schema does not declare
      are ignored by it. */
  datatype ReviewBody = ReviewBody(eventId: Option<int>, authorId: Option<int>, comment: Option<string>, rating: Option<int>)

  /** Create, with the author taken from the authenticated user: no author field. */
  datatype ReviewCreateAuthenticated = ReviewCreateAuthenticated(eventId: int, comment: string, rating: int)

  /** Create on behalf of an author named in the body. */
  datatype ReviewCreateWithoutBinding = ReviewCreateWithoutBinding(eventId: int, authorId: int, comment: string, rating: int)

  /** Update: both fields are required, so an update always replaces both. */
  datatype ReviewUpdate = ReviewUpdate(comment: string, rating: int)

  predicate RatingInRange(rating: int) {
    RATING_MIN <= rating <= RATING_MAX
  }

  /** A required field: missing is the only way it can fail here. */
  function Required<T>(field: string, v: Option<T>): (issues: seq<Issue>)
    ensures issues == [] <==> v.Some?
  {
    if v.None? then [Missing(field)] else []
  }

  /** A required rating constrained to [1, 5]. */
  function RatingIssues(v: Option<int>): (issues: seq<Issue>)
    ensures issues == [] <==> v.Some? && RatingInRange(v.value)
  {
    if v.None? then [Missing("rating")] else RangeIssues("rating", v.value, RATING_MIN, RATING_MAX)
  }

  /** `ReviewCreateSchemaAuthenticated`: accepted exactly when event, comment and an
      in-range rating are present; an author id in the body is ignored. */
  function ValidateCreateAuthenticated(body: ReviewBody): (r: Result<ReviewCreateAuthenticated, seq<Issue>>)
    ensures r.Ok? <==> body.eventId.Some? && body.comment.Some? && body.rating.Some? && RatingInRange(body.rating.value)
    ensures r.Ok? ==> r.value == ReviewCreateAuthenticated(body.eventId.value, body.comment.value, body.rating.value)
    ensures r.Err? ==> r.error != [] && forall i :: 0 <= i < |r.error| ==> r.error[i].Field() in {"event_id", "comment", "rating"}
  {
    var issues := Required("event_id", body.eventId) + Required("comment", body.comment) + RatingIssues(body.rating);
    if issues == [] then Ok(ReviewCreateAuthenticated(body.eventId.value, body.comment.value, body.rating.value))
    else Err(issues)
  }

  /** `ReviewCreateSchemaWithoutBinding`: as above, and the author id is required too. */
  function ValidateCreateWithoutBinding(body: ReviewBody): (r: Result<ReviewCreateWithoutBinding, seq<Issue>>)
    ensures r.Ok? <==> body.eventId.Some? && body.authorId.Some? && body.comment.Some? &&
                       body.rating.Some? && RatingInRange(body.rating.value)
    ensures r.Ok? ==> r.value == ReviewCreateWithoutBinding(body.eventId.value, body.authorId.value, body.comment.value, body.rating.value)
    ensures r.Err? ==> r.error != [] && forall i :: 0 <= i < |r.error| ==> r.error[i].Field() in {"event_id", "author_id", "comment", "rating"}
  {
    var issues := Required("event_id", body.eventId) + Required("author_id", body.authorId) +
                  Required("comment", body.comment) + RatingIssues(body.rating);
    if issues == [] then
      Ok(ReviewCreateWithoutBinding(body.eventId.value, body.authorId.value, body.comment.value, body.rating.value))
    else Err(issues)
  }

  /** `ReviewUpdateSchema`: not a partial update; comment and an in-range rating are both required. */
  function ValidateUpdate(body: ReviewBody): (r: Result<ReviewUpdate, seq<Issue>>)
    ensures r.Ok? <==> body.comment.Some? && body.rating.Some? && RatingInRange(body.rating.value)
    ensures r.Ok? ==> r.value == ReviewUpdate(body.comment.value, body.rating.value)
    ensures r.Err? ==> r.error != [] && forall i :: 0 <= i < |r.error| ==> r.error[i].Field() in {"comment", "rating"}
  {
    var issues := Required("comment", body.comment) + RatingIssues(body.rating);
    if issues == [] then Ok(ReviewUpdate(body.comment.value, body.rating.value)) else Err(issues)
  }

  /** The two create schemas agree on the rating, the authenticated one never depends on
      an author id in the body, and every body the unbound schema accepts is accepted by
      the authenticated one with the same event, comment and rating. */
  lemma CreateSchemasAgree(body: ReviewBody, someAuthor: Option<int>)
    ensures ValidateCreateAuthenticated(body) == ValidateCreateAuthenticated(body.(authorId := someAuthor))
    ensures ValidateCreateWithoutBinding(body).Ok? ==>
              var b := ValidateCreateWithoutBinding(body).value;
              ValidateCreateAuthenticated(body) == Ok(ReviewCreateAuthenticated(b.eventId, b.comment, b.rating))
    ensures ValidateCreateWithoutBinding(body).Ok? <==> ValidateCreateAuthenticated(body).Ok? && body.authorId.Some?
  {
  }

  /** A rating outside [1, 5] is refused by every review schema, whatever else the body holds. */
  lemma RatingOutOfRangeRefused(body: ReviewBody)
    requires body.rating.Some? && !RatingInRange(body.rating.value)
    ensures ValidateCreateAuthenticated(body).Err?
    ensures ValidateCreateWithoutBinding(body).Err?
    ensures ValidateUpdate(body).Err?
    ensures var v := body.rating.value;
            var expected := if v < RATING_MIN then GreaterThanEqual("rating", RATING_MIN) else LessThanEqual("rating", RATING_MAX);
            && expected in ValidateCreateAuthenticated(body).error
            && expected in ValidateCreateWithoutBinding(body).error
            && expected in ValidateUpdate(body).error
  {
  }
}

=== FILE: schemas_auth.dfy ===
/** The request and response schemas of the authentication endpoints. */
module SchemasAuth {
  import opened Wrappers
  import opened Validation
  import opened UserModel
  import opened Claims

  /** The public view of a user returned to clients: every column except the password hash. */
  datatype UserResponse = UserResponse(
    id: int,
    email: string,
    name: Option<string>,
    bio: Option<string>,
    isActive: bool,
    role: string,
    createdAt: int
  )

  /** Building the response from a row (`from_attributes`). */
  function ToResponse(u: User): UserResponse {
    UserResponse(u.id, u.email, u.name, u.bio, u.isActive, u.role, u.createdAt)
  }

  /** The response reveals nothing about the password hash, and everything else: two rows
      give the same response exactly when they agree on every column but the hash. */
  lemma ResponseHidesOnlyPassword(u: User, v: User)
    ensures ToResponse(u) == ToResponse(v) <==> u.(hashedPassword := v.hashedPassword) == v
  {
  }

  /** `{"access_token": ..., "token_type": ...}`. */
  datatype Token = Token(accessToken: AccessToken, tokenType: string)

  /** The decoded subject of a token; `user_id` is optional and defaults to None. */
  datatype TokenData = TokenData(userId: Option<int>)

  const DEFAULT_TOKEN_DATA := TokenData(None)

  /** The registration response: the created user's public view and its token. */
  datatype UserWithToken = UserWithToken(user: UserResponse, token: Token)

  /** A registration body as sent: each field may be missing (a null `name` is missing too). */
  datatype RegistrationBody = RegistrationBody(email: Option<string>, password: Option<string>, name: Option<string>)

  /** A registration body that passed validation. */
  datatype UserCreateAuth = UserCreateAuth(email: string, password: string, name: Option<string>)

  const PASSWORD_MIN_LENGTH := 8
  const NAME_MIN_LENGTH := 2
  const NAME_MAX_LENGTH := 100

  /** Every constraint of the registration schema holds of the body. `normalise` is the
      `EmailStr` validator, which is not modelled: it refuses an invalid address (None)
      and otherwise yields the normalised address. */
  predicate AcceptableRegistration(body: RegistrationBody, normalise: string -> Option<string>) {
    && body.email.Some? && normalise(body.email.value).Some?
    && body.password.Some? && |body.password.value| >= PASSWORD_MIN_LENGTH
    && (body.name.Some? ==> NAME_MIN_LENGTH <= |body.name.value| <= NAME_MAX_LENGTH)
  }

  /** The address a valid body carries on: the normalised form, not the text as sent. */
  function ValidatedEmail(body: RegistrationBody, normalise: string -> Option<string>): string
    requires body.email.Some? && normalise(body.email.value).Some?
  {
    normalise(body.email.value).value
  }

  /** Validating a registration body: the validated record, with the email normalised, when
      every constraint holds, otherwise one issue per failing field, each naming that field. */
  function ValidateUserCreateAuth(body: RegistrationBody, normalise: string -> Option<string>): (r: Result<UserCreateAuth, seq<Issue>>)
    ensures r.Ok? <==> AcceptableRegistration(body, normalise)
    ensures r.Ok? ==> r.value == UserCreateAuth(ValidatedEmail(body, normalise), body.password.value, body.name)
    ensures r.Err? ==> 1 <= |r.error| <= 3
    ensures r.Err? ==> forall i :: 0 <= i < |r.error| ==> r.error[i].Field() in {"email", "password", "name"}
  {
    var emailIssues :=
      if body.email.None? then [Missing("email")]
      else if normalise(body.email.value).None? then [InvalidEmail("email")]
      else [];
    var passwordIssues :=
      if body.password.None? then [Missing("password")]
      else if |body.password.value| < PASSWORD_MIN_LENGTH then [StringTooShort("password", PASSWORD_MIN_LENGTH)]
      else [];
    var nameIssues :=
      if body.name.None? then [] else LengthIssues("name", body.name.value, NAME_MIN_LENGTH, NAME_MAX_LENGTH);
    var issues := emailIssues + passwordIssues + nameIssues;
    if issues == [] then Ok(UserCreateAuth(normalise(body.email.value).value, body.password.value, body.name))
    else Err(issues)
  }

  /** A short password is refused whatever the other fields hold. */
  lemma ShortPasswordRefused(body: RegistrationBody, normalise: string -> Option<string>)
    requires body.password.Some? && |body.password.value| < PASSWORD_MIN_LENGTH
    ensures ValidateUserCreateAuth(body, normalise).Err?
    ensures StringTooShort("password", PASSWORD_MIN_LENGTH) in ValidateUserCreateAuth(body, normalise).error
  {
  }
}

=== FILE: security.dfy ===
/** Access-token creation and decoding. Time is whole seconds since the epoch; `now`
    is the clock reading, passed in. */
module Security {
  import opened Wrappers
  import opened Claims
  import opened SchemasAuth
  import Decimal

  /** The configured default token lifetime, in minutes. */
  const ACCESS_TOKEN_EXPIRE_MINUTES: nat := 30
  const DEFAULT_LIFETIME: nat := ACCESS_TOKEN_EXPIRE_MINUTES * 60

  /** The `exp` instant of a new token. `expires_delta` is an optional signed duration in
      seconds; like every timedelta, a zero duration is falsy and so gets the default. */
  function ExpiryFor(expiresDelta: Option<int>, now: int): (t: int)
    ensures expiresDelta.Some? && expiresDelta.value != 0 ==> t == now + expiresDelta.value
    ensures expiresDelta.None? || expiresDelta == Some(0) ==> t == now + DEFAULT_LIFETIME
    ensures t != now
  {
    if expiresDelta.Some? && expiresDelta.value != 0 then now + expiresDelta.value
    else now + DEFAULT_LIFETIME
  }

  /** `create_access_token`: the caller's claims, copied, with `exp` set (replacing any
      `exp` the caller supplied), then signed. */
  function CreateAccessToken(data: Payload, expiresDelta: Option<int>, now: int): (t: AccessToken)
    ensures t.claims.Keys == data.Keys + {EXP}
    ensures t.claims[EXP] == Integer(ExpiryFor(expiresDelta, now))
    ensures forall k :: k in data && k != EXP ==> t.claims[k] == data[k]
  {
    Signed(data[EXP := Integer(ExpiryFor(expiresDelta, now))])
  }

  /** `decode_access_token`: the subject as an integer id, or None when the token does
      not verify, carries no subject, or its subject is not an integer. */
  function DecodeAccessToken(outcome: JwtOutcome): (r: Option<TokenData>)
    ensures outcome.JwtError? ==> r.None?
    ensures outcome.Decoded? && Get(outcome.payload, SUB).None? ==> r.None?
    ensures (outcome.Decoded? && SUB in outcome.payload && outcome.payload[SUB].Text? &&
             Decimal.Parse(outcome.payload[SUB].text).None?) ==> r.None?
    ensures r.Some? ==> r.value != DEFAULT_TOKEN_DATA && r.value.userId.Some?
  {
    match outcome
    case JwtError => None
    case Decoded(payload) =>
      match Get(payload, SUB)
      case None => None
      case Some(sub) =>
        match ToInt(sub)
        case None => None
        case Some(userId) => Some(TokenData(Some(userId)))
  }

  /** The claims a session token is issued with: the subject is the decimal user id. */
  function SubjectClaims(userId: int): Payload {
    map[SUB := Text(Decimal.Show(userId))]
  }

  /** A token issued for `userId`, handed back intact by the JWT layer, decodes to that id,
      whatever its lifetime. */
  lemma IssuedTokenDecodes(userId: int, expiresDelta: Option<int>, now: int)
    ensures DecodeAccessToken(Decoded(CreateAccessToken(SubjectClaims(userId), expiresDelta, now).claims))
              == Some(TokenData(Some(userId)))
  {
    Decimal.ParseShow(userId);
  }
}

=== FILE: user_crud.dfy ===
/** The users table and the operations on it. The table is a map from primary key to
    row; the database assigns ids and clock readings, so those arrive as parameters. */
module UserCrud {
  import opened Wrappers
  import opened Passwords
  import opened UserModel
  import opened SchemasAuth

  type Store = map<int, User>

  /** The primary key: each row sits under its own id. */
  ghost predicate KeyedById(s: Store) {
    forall id :: id in s ==> s[id].id == id
  }

  /** The unique constraint on the email column. */
  ghost predicate EmailsUnique(s: Store) {
    forall a, b :: a in s && b in s && s[a].email == s[b].email ==> a == b
  }

  /** The table's constraints. */
  ghost predicate WellFormed(s: Store) {
    KeyedById(s) && EmailsUnique(s)
  }

  /** The error the database raises when a write would break a unique column. */
  datatype DbError = UniqueViolation(column: string)

  // ---------------------------------------------------------------------------
  // Reading

  /** `get_user_by_id`: the row with this primary key, if any. */
  function GetUserById(s: Store, id: int): (r: Option<User>)
    ensures r.Some? <==> id in s
    ensures r.Some? ==> r.value == s[id] && (WellFormed(s) ==> r.value.id == id)
  {
    if id in s then Some(s[id]) else None
  }

  predicate StrictlyIncreasing(ids: seq<int>) {
    forall i, j :: 0 <= i < j < |ids| ==> ids[i] < ids[j]
  }

  lemma HasMember(ks: set<int>)
    requires ks != {}
    ensures exists k :: k in ks
  {
    if forall k :: k !in ks {
      assert false;
    }
  }

  /** Every non-empty finite set of ids has a least element. */
  lemma {:induction false} LeastExists(ks: set<int>)
    requires ks != {}
    ensures exists m :: m in ks && forall k :: k in ks ==> m <= k
    decreases |ks|
  {
    HasMember(ks);
    var x :| x in ks;
    var rest := ks - {x};
    if forall k :: k !in rest {
      forall k | k in ks ensures x <= k {
        assert k == x || k in rest;
      }
    } else {
      LeastExists(rest);
      var m :| m in rest && forall k :: k in rest ==> m <= k;
      var least := if x < m then x else m;
      assert forall k :: k in ks ==> least <= k by {
        forall k | k in ks ensures least <= k {
          if k != x {
            assert k in rest;
          }
        }
      }
    }
  }

  function Least(ks: set<int>): (m: int)
    requires ks != {}
    ensures m in ks && forall k :: k in ks ==> m <= k
  {
    LeastExists(ks);
    var m :| m in ks && forall k :: k in ks ==> m <= k;
    m
  }

  /** The ids in ascending order, as `ORDER BY id` lists them. */
  function AscendingIds(ks: set<int>): (ids: seq<int>)
    ensures StrictlyIncreasing(ids)
    ensures |ids| == |ks|
    ensures forall k :: k in ks <==> k in ids
    decreases |ks|
  {
    if ks == {} then []
    else
      var m := Least(ks);
      [m] + AscendingIds(ks - {m})
  }

  /** The position a row takes in id order: how many ids are smaller than its own. */
  ghost function Rank(s: Store, id: int): nat {
    |set k | k in s && k < id|
  }

  ghost function Prefix(ids: seq<int>, j: nat): set<int>
    requires j <= |ids|
  {
    set i | 0 <= i < j :: ids[i]
  }

  lemma {:induction false} PrefixSize(ids: seq<int>, j: nat)
    requires StrictlyIncreasing(ids) && j <= |ids|
    ensures |Prefix(ids, j)| == j
    decreases j
  {
    if j > 0 {
      assert Prefix(ids, j) == Prefix(ids, j - 1) + {ids[j - 1]};
      assert ids[j - 1] !in Prefix(ids, j - 1);
      PrefixSize(ids, j - 1);
    }
  }

  /** In the ascending id list of a table, the id at position j has rank j. */
  lemma AscendingRanks(s: Store, ids: seq<int>)
    requires StrictlyIncreasing(ids)
    requires forall k :: k in s <==> k in ids
    ensures forall j :: 0 <= j < |ids| ==> Rank(s, ids[j]) == j
  {
    forall j | 0 <= j < |ids|
      ensures Rank(s, ids[j]) == j
    {
      var smaller := set k | k in s && k < ids[j];
      forall k | k in smaller ensures k in Prefix(ids, j) {
        var i :| 0 <= i < |ids| && ids[i] == k;
        assert i < j;
      }
      assert smaller == Prefix(ids, j);
      PrefixSize(ids, j);
    }
  }

  /** The rows stored under `ids`, in that order. */
  function RowsAt(s: Store, ids: seq<int>): (rows: seq<User>)
    requires forall i :: 0 <= i < |ids| ==> ids[i] in s
    ensures |rows| == |ids|
    ensures forall k :: 0 <= k < |rows| ==> rows[k] == s[ids[k]]
  {
    seq(|ids|, k requires 0 <= k < |ids| => s[ids[k]])
  }

  /** The rows at positions [start, end) of the ascending id list have exactly the
      ranks start, start + 1, ... */
  lemma PageOfAscending(s: Store, ids: seq<int>, start: nat, end: nat)
    requires KeyedById(s)
    requires StrictlyIncreasing(ids) && forall k :: k in s <==> k in ids
    requires start <= end <= |ids|
    ensures forall i :: 0 <= i < end - start ==> ids[start..end][i] in s
    ensures var page := RowsAt(s, ids[start..end]);
            forall k :: 0 <= k < |page| ==>
              page[k].id in s && s[page[k].id] == page[k] && Rank(s, page[k].id) == start + k
  {
    AscendingRanks(s, ids);
    var window := ids[start..end];
    forall i | 0 <= i < |window| ensures window[i] in s {
      var k := window[i];
      assert k == ids[start + i];
      assert k in ids;
    }
    var page := RowsAt(s, window);
    forall k | 0 <= k < |page|
      ensures page[k].id in s && s[page[k].id] == page[k] && Rank(s, page[k].id) == start + k
    {
      assert window[k] == ids[start + k];
    }
  }

  /** `get_users_paginated`: `ORDER BY id OFFSET skip LIMIT limit`. The page holds the rows
      whose rank in id order lies in [skip, skip + limit), in that order. */
  function GetUsersPaginated(s: Store, skip: nat := 0, limit: nat := 100): (page: seq<User>)
    requires KeyedById(s)
    ensures |page| == (if skip < |s| then Min(limit, |s| - skip) else 0)
    ensures forall k :: 0 <= k < |page| ==>
              page[k].id in s && s[page[k].id] == page[k] && Rank(s, page[k].id) == skip + k
  {
    var ids := AscendingIds(s.Keys);
    var start := Min(skip, |ids|);
    var end := Min(start + limit, |ids|);
    PageOfAscending(s, ids, start, end);
    RowsAt(s, ids[start..end])
  }

  function Min(a: int, b: int): int {
    if a <= b then a else b
  }

  /** The first row of `ids` whose email matches. */
  function FirstWithEmail(s: Store, ids: seq<int>, email: string): (r: Option<User>)
    requires forall i :: 0 <= i < |ids| ==> ids[i] in s
    ensures r.Some? <==> exists i :: 0 <= i < |ids| && s[ids[i]].email == email
    ensures r.Some? ==> exists i :: 0 <= i < |ids| && s[ids[i]] == r.value && r.value.email == email
    decreases |ids|
  {
    if ids == [] then None
    else if s[ids[0]].email == email then Some(s[ids[0]])
    else
      var rest := FirstWithEmail(s, ids[1..], email);
      assert forall i :: 1 <= i < |ids| ==> ids[i] == ids[1..][i - 1];
      rest
  }

  /** Searching the ascending id list finds a row with the email exactly when one exists,
      and under the unique constraint it is that row. */
  lemma EmailSearch(s: Store, ids: seq<int>, email: string)
    requires forall k :: k in s <==> k in ids
    ensures forall i :: 0 <= i < |ids| ==> ids[i] in s
    ensures var r := FirstWithEmail(s, ids, email);
            && (r.Some? <==> exists id :: id in s && s[id].email == email)
            && (r.Some? ==> r.value in s.Values && r.value.email == email)
            && (WellFormed(s) ==> forall id :: id in s && s[id].email == email ==> r == Some(s[id]))
  {
    forall i | 0 <= i < |ids| ensures ids[i] in s {
      var k := ids[i];
      assert k in ids;
    }
    var r := FirstWithEmail(s, ids, email);
    if exists id :: id in s && s[id].email == email {
      var id :| id in s && s[id].email == email;
      var i :| 0 <= i < |ids| && ids[i] == id;
      assert s[ids[i]].email == email;
      var j :| 0 <= j < |ids| && s[ids[j]] == r.value && r.value.email == email;
      assert s[ids[j]] in s.Values;
      if WellFormed(s) {
        forall id' | id' in s && s[id'].email == email
          ensures r == Some(s[id'])
        {
          assert ids[j] in s && s[ids[j]].email == s[id'].email;
          assert ids[j] == id';
        }
      }
    }
  }

  /** Some row has this email. */
  predicate EmailRegistered(s: Store, email: string) {
    exists id :: id in s && s[id].email == email
  }

  /** `get_user_by_email`: the row with this email, if any (the unique constraint makes
      it the only one; without it, the one with the least id). */
  function GetUserByEmail(s: Store, email: string): (r: Option<User>)
    ensures r.Some? <==> EmailRegistered(s, email)
    ensures r.Some? ==> r.value in s.Values && r.value.email == email
    ensures WellFormed(s) ==> forall id :: id in s && s[id].email == email ==> r == Some(s[id])
  {
    var ids := AscendingIds(s.Keys);
    EmailSearch(s, ids, email);
    FirstWithEmail(s, ids, email)
  }

  // ---------------------------------------------------------------------------
  // Writing

  /** Another row than `except` already uses this email. */
  predicate EmailTaken(s: Store, email: string, except: int) {
    exists id :: id in s && id != except && s[id].email == email
  }

  /** Committing a row under its id: refused with a unique violation when another row
      already has its email; every other row is left as it was. */
  function Commit(s: Store, u: User): (r: Result<Store, DbError>)
    ensures r.Err? <==> EmailTaken(s, u.email, u.id)
    ensures r.Ok? ==> r.value.Keys == s.Keys + {u.id} && r.value[u.id] == u
    ensures r.Ok? ==> forall id :: id in s && id != u.id ==> r.value[id] == s[id]
    ensures r.Ok? && WellFormed(s) ==> WellFormed(r.value)
  {
    if EmailTaken(s, u.email, u.id) then Err(UniqueViolation("email")) else Ok(s[u.id := u])
  }

  /** What an administrator submits to create a user; `isActive` and `role` may be left out. */
  datatype UserCreate = UserCreate(
    email: string,
    password: string,
    name: Option<string>,
    bio: Option<string>,
    isActive: Option<bool>,
    role: Option<string>
  )

  /** The row `create_user_by_admin` builds. A missing active flag means active, but an
      explicit false is kept; a missing or empty role means "user". */
  function NewUserByAdmin(input: UserCreate, id: int, salt: nat, now: int): (u: User)
    ensures u.id == id && u.email == input.email && u.name == input.name && u.bio == input.bio
    ensures u.createdAt == now
    ensures forall p :: VerifyPassword(p, u.hashedPassword) <==> p == input.password
    ensures u.isActive <==> input.isActive != Some(false)
    ensures u.role != ""
    ensures input.role.Some? && input.role.value != "" ==> u.role == input.role.value
    ensures input.role.None? || input.role == Some("") ==> u.role == ROLE_USER
  {
    User(
      id := id,
      email := input.email,
      name := input.name,
      bio := input.bio,
      hashedPassword := GetPasswordHash(input.password, salt),
      isActive := if input.isActive.Some? then input.isActive.value else true,
      role := if input.role.Some? && input.role.value != "" then input.role.value else ROLE_USER,
      createdAt := now
    )
  }

  /** `create_user_by_admin`: insert the new row under the id the database assigns. */
  function CreateUserByAdmin(s: Store, input: UserCreate, id: int, salt: nat, now: int): (r: Result<(Store, User), DbError>)
    requires id !in s
    ensures r.Err? <==> EmailTaken(s, input.email, id)
    ensures r.Ok? ==> r.value.1 == NewUserByAdmin(input, id, salt, now)
    ensures r.Ok? ==> r.value.0 == s[id := r.value.1]
    ensures r.Ok? && WellFormed(s) ==> WellFormed(r.value.0)
  {
    var u := NewUserByAdmin(input, id, salt, now);
    var s' :- Commit(s, u);
    Ok((s', u))
  }

  /** The row `register_new_user` builds: a self-registered user is always an active
      plain user with no bio. */
  function NewRegisteredUser(input: UserCreateAuth, id: int, salt: nat, now: int): (u: User)
    ensures u.id == id && u.email == input.email && u.name == input.name && u.createdAt == now
    ensures forall p :: VerifyPassword(p, u.hashedPassword) <==> p == input.password
    ensures u.role == ROLE_USER && u.isActive && u.bio.None?
  {
    User(id, input.email, input.name, None, GetPasswordHash(input.password, salt), true, ROLE_USER, now)
  }

  /** `register_new_user`: insert the registered row under the id the database assigns. */
  function RegisterNewUser(s: Store, input: UserCreateAuth, id: int, salt: nat, now: int): (r: Result<(Store, User), DbError>)
    requires id !in s
    ensures r.Err? <==> EmailTaken(s, input.email, id)
    ensures r.Ok? ==> r.value.1 == NewRegisteredUser(input, id, salt, now)
    ensures r.Ok? ==> r.value.0 == s[id := r.value.1]
    ensures r.Ok? && WellFormed(s) ==> WellFormed(r.value.0)
  {
    var u := NewRegisteredUser(input, id, salt, now);
    var s' :- Commit(s, u);
    Ok((s', u))
  }

  /** The fields an update request explicitly set. A nullable column can be explicitly
      set to None, which is why `name` and `bio` carry two levels of Option. */
  datatype UserPatch = UserPatch(
    email: Option<string>,
    name: Option<Option<string>>,
    bio: Option<Option<string>>,
    isActive: Option<bool>,
    role: Option<string>
  )

  const EMPTY_PATCH := UserPatch(None, None, None, None, None)

  /** Assigning each explicitly set field onto the row (`model_dump(exclude_unset=True)`
      then `setattr`). */
  function ApplyPatch(u: User, p: UserPatch): (r: User)
    ensures r.id == u.id && r.hashedPassword == u.hashedPassword && r.createdAt == u.createdAt
    ensures p.email.Some? ==> r.email == p.email.value
    ensures p.email.None? ==> r.email == u.email
    ensures p.name.Some? ==> r.name == p.name.value
    ensures p.name.None? ==> r.name == u.name
    ensures p.bio.Some? ==> r.bio == p.bio.value
    ensures p.bio.None? ==> r.bio == u.bio
    ensures p.isActive.Some? ==> r.isActive == p.isActive.value
    ensures p.isActive.None? ==> r.isActive == u.isActive
    ensures p.role.Some? ==> r.role == p.role.value
    ensures p.role.None? ==> r.role == u.role
  {
    u.(
      email := if p.email.Some? then p.email.value else u.email,
      name := if p.name.Some? then p.name.value else u.name,
      bio := if p.bio.Some? then p.bio.value else u.bio,
      isActive := if p.isActive.Some? then p.isActive.value else u.isActive,
      role := if p.role.Some? then p.role.value else u.role
    )
  }

  /** Two updates in a row: the later one's set fields win. */
  function Then(p: UserPatch, q: UserPatch): UserPatch {
    UserPatch(
      if q.email.Some? then q.email else p.email,
      if q.name.Some? then q.name else p.name,
      if q.bio.Some? then q.bio else p.bio,
      if q.isActive.Some? then q.isActive else p.isActive,
      if q.role.Some? then q.role else p.role
    )
  }

  /** Applying the same update twice is applying it once; an empty update changes nothing;
      two updates in a row are one combined update. */
  lemma PatchLaws(u: User, p: UserPatch, q: UserPatch)
    ensures ApplyPatch(ApplyPatch(u, p), p) == ApplyPatch(u, p)
    ensures ApplyPatch(u, EMPTY_PATCH) == u
    ensures ApplyPatch(ApplyPatch(u, p), q) == ApplyPatch(u, Then(p, q))
  {
  }

  /** `update_existing_user`: write the patched row back. Only the row being updated
      changes; a new email already used by another row is refused. */
  function UpdateExistingUser(s: Store, u: User, p: UserPatch): (r: Result<(Store, User), DbError>)
    requires u.id in s
    ensures r.Err? <==> EmailTaken(s, ApplyPatch(u, p).email, u.id)
    ensures r.Ok? ==> r.value.1 == ApplyPatch(u, p) && r.value.0 == s[u.id := r.value.1]
    ensures r.Ok? ==> r.value.0.Keys == s.Keys
    ensures r.Ok? && WellFormed(s) && s[u.id] == u ==> WellFormed(r.value.0)
  {
    var u' := ApplyPatch(u, p);
    var s' :- Commit(s, u');
    Ok((s', u'))
  }

  /** What a user may change about their own profile: never the role or the active flag. */
  datatype ProfilePatch = ProfilePatch(email: Option<string>, name: Option<Option<string>>, bio: Option<Option<string>>)

  function AsUserPatch(p: ProfilePatch): UserPatch {
    UserPatch(p.email, p.name, p.bio, None, None)
  }

  /** `update_user_profile`: the same merge, restricted to profile fields. Exactly the
      profile fields the request set change; it is refused when the resulting email
      belongs to another row. */
  function UpdateUserProfile(s: Store, u: User, p: ProfilePatch): (r: Result<(Store, User), DbError>)
    requires u.id in s
    ensures r.Err? <==> EmailTaken(s, if p.email.Some? then p.email.value else u.email, u.id)
    ensures r.Ok? ==> r.value.1 == u.(
              email := if p.email.Some? then p.email.value else u.email,
              name := if p.name.Some? then p.name.value else u.name,
              bio := if p.bio.Some? then p.bio.value else u.bio)
    ensures r.Ok? ==> r.value.1.role == u.role && r.value.1.isActive == u.isActive
    ensures r.Ok? ==> r.value.1.hashedPassword == u.hashedPassword
    ensures r.Ok? ==> r.value.0 == s[u.id := r.value.1]
    ensures r.Ok? && WellFormed(s) && s[u.id] == u ==> WellFormed(r.value.0)
  {
    UpdateExistingUser(s, u, AsUserPatch(p))
  }

  /** `update_user_password`: only the stored hash changes, and it accepts exactly the
      new password. */
  function UpdateUserPassword(s: Store, u: User, newPassword: string, salt: nat): (r: (Store, User))
    requires u.id in s
    ensures r.1 == u.(hashedPassword := r.1.hashedPassword)
    ensures forall p :: VerifyPassword(p, r.1.hashedPassword) <==> p == newPassword
    ensures r.0 == s[u.id := r.1]
    ensures WellFormed(s) && s[u.id] == u ==> WellFormed(r.0)
  {
    var u' := u.(hashedPassword := GetPasswordHash(newPassword, salt));
    (s[u.id := u'], u')
  }

  /** `delete_existing_user`: the row disappears, every other row stays. */
  function DeleteExistingUser(s: Store, u: User): (r: Store)
    ensures r.Keys == s.Keys - {u.id}
    ensures forall id :: id in r ==> r[id] == s[id]
    ensures WellFormed(s) ==> WellFormed(r)
  {
    s - {u.id}
  }
}

=== FILE: user_model.dfy ===
/** The user row as the authentication code reads and writes it. */
module UserModel {
  import opened Wrappers
  import opened Passwords

  const ROLE_USER := "user"
  const ROLE_ORGANIZER := "organizer"
  const ROLE_ADMIN := "admin"

  /** One row of the users table. `role` is free text, compared against the role names
      above; `createdAt` is the insertion instant in seconds. */
  datatype User = User(
    id: int,
    email: string,
    name: Option<string>,
    bio: Option<string>,
    hashedPassword: Digest,
    isActive: bool,
    role: string,
    createdAt: int
  )
}

=== FILE: validation.dfy ===
/** Request-body validation as the schema layer performs it before a handler runs:
    every declared constraint that fails contributes one issue, in field order. */
module Validation {

  /** One entry of a validation error report: the offending field and what is wrong with it. */
  datatype Issue =
    | Missing(field: string)
    | GreaterThanEqual(field: string, bound: int)   // value is below its `ge` bound
    | LessThanEqual(field: string, bound: int)      // value is above its `le` bound
    | StringTooShort(field: string, minLength: nat)
    | StringTooLong(field: string, maxLength: nat)
    | InvalidEmail(field: string)
  {
    function Field(): string {
      match this
      case Missing(f) => f
      case GreaterThanEqual(f, _) => f
      case LessThanEqual(f, _) => f
      case StringTooShort(f, _) => f
      case StringTooLong(f, _) => f
      case InvalidEmail(f) => f
    }
  }

  /** The issues of an integer field declared `Field(ge=lo, le=hi)`. */
  function RangeIssues(field: string, v: int, lo: int, hi: int): (issues: seq<Issue>)
    requires lo <= hi
    ensures issues == [] <==> lo <= v <= hi
    ensures |issues| <= 1
    ensures forall i :: 0 <= i < |issues| ==> issues[i].Field() == field
  {
    if v < lo then [GreaterThanEqual(field, lo)]
    else if v > hi then [LessThanEqual(field, hi)]
    else []
  }

  /** The issues of a string field declared `Field(min_length=lo, max_length=hi)`. */
  function LengthIssues(field: string, s: string, lo: nat, hi: nat): (issues: seq<Issue>)
    requires lo <= hi
    ensures issues == [] <==> lo <= |s| <= hi
    ensures |issues| <= 1
    ensures forall i :: 0 <= i < |issues| ==> issues[i].Field() == field
  {
    if |s| < lo then [StringTooShort(field, lo)]
    else if |s| > hi then [StringTooLong(field, hi)]
    else []
  }
}

=== FILE: wrappers.dfy ===
/** Failure-compatible Option and Result types shared by every module of the model. */
module Wrappers {

  /** Python's `X | None`: a value that may be absent. */
  datatype Option<+T> = None | Some(value: T)

  /** An operation's outcome: a value, or the error the source raises or returns. */
  datatype Result<+T, +E> = Ok(value: T) | Err(error: E) {

    predicate IsFailure() {
      Err?
    }

    function PropagateFailure<U>(): Result<U, E>
      requires Err?
    {
      Err(error)
    }

    function Extract(): T
      requires Ok?
    {
      value
    }
  }
}
